=== FILE: README.md ===
# Property registry chaincode — Dafny model

This project models the registry logic of a Hyperledger Fabric chaincode that
records property ownership. The code exists in two near-duplicate variants,
`property_cc.go` and `property_info.go`. Both expose the same three
operations:

- `register` stores a `Property` record under its folio ID. It also appends
  the record to a denormalised `AllProperties` index kept under the key
  `"allProps"`.
- `search` filters that index on one field.
- `init` does nothing.

The variants differ in these ways:

- how the folio ID is validated (anchored or unanchored pattern);
- how errors are reported (status envelope or raw error);
- the texts of the error messages (`property_cc.go` appends `..!!` to some);
- what a success returns: `property_cc.go` returns an envelope from both
  `Init` and `Register`; `property_info.go` returns nothing from `Init` and
  a fixed `mssg` text from `Register`;
- whether the index is read again after saving;
- what an unknown search type does.

The ledger is modelled as one immutable map from key to value (`Ledger.Store`).
A value is either a primary record or the index list. Each chaincode
operation is a pure function. `Register` and `Invoke` return the new store
and the reply. `Query` and `GetProperties` return only a reply, because
they never write.

Every call to the host (`GetState`, `PutState`) can fail. Which ones fail is
given by one record of flags, `Ledger.Faults`. This makes the partial-write
cases expressible:

- a record with no index entry;
- an index reset after a failed read;
- a duplicate let through when the lookup fails.

Modules:

- `Wrappers`: `Option`.
- `Folio`: the pattern `[0-9]{1}[/.][0-9]{5}` as a small class-sequence
  matcher. It has an anchored form and an unanchored form, each proved equal
  to a plain statement of the shape.
- `Ledger`: the data model, the shared `saveProperty` write sequence, and
  the registry invariant (`Consistent`). The invariant says folio IDs in the
  index are pairwise distinct and every index entry is the primary record
  stored under its folio ID.
- `Search`: the recognised search types and the reference filter, with its
  ordering and multiplicity lemmas.
- `Envelope`: the text `responseObject` builds, a reader for it, and the
  corrected text with its own reader.
- `PropertyCc`, `PropertyInfo`: one module per chaincode file.

What the code does and does not do, which the model follows:

- It has no delete or update operation.
- The beneficial owner is one string, not a list of name/percent pairs.
- An absent index reads as empty rather than as an error.
- In `property_cc.go` an unknown search type fails only when the index has
  an entry. In `property_info.go` it never fails.

## Model

| member | source | states |
|---|---|---|
| Folio.MatchWhole | property_cc.go:126 | the pattern anchored with `^...$` holds exactly when the string is as long as the pattern and each class accepts its character |
| Folio.MatchAnywhere | property_info.go:115 | the unanchored pattern holds exactly when it matches at the start of some suffix of the string |
| Folio.FolioField | property_info.go:99 | the fragment `"Folio_ID":"<arg>", ` is never empty, and it has a folio-shaped window exactly when the argument has one |
| Folio.MatchHereClasses | property_cc.go:126 | matching a class sequence at the start of a string means each class accepts the corresponding character |
| Folio.WholeIsShape | property_cc.go:126 | the anchored pattern accepts exactly the 7-character strings made of a digit, `/` or `.`, and five digits |
| Folio.AnywhereIsWindow | property_info.go:115 | the unanchored pattern accepts exactly the strings that contain such a 7-character window |
| Folio.WrappedWindow | property_info.go:99-115 | text with no digits placed around a string neither adds nor removes a folio-shaped window |
| Folio.NoDigitsNoWindow | property_info.go:115 | a string without digits never matches |
| Ledger.IndexOf | property_cc.go:77-79 | reading the index with the decode error ignored: an absent key reads as empty, a stored list reads back whole, and a non-empty result is always the stored list |
| Ledger.IndexReadAfterWrite | property_cc.go:70-87 | the index written under `"allProps"` is what the next read returns, and a write under any other key leaves the index read unchanged |
| Ledger.NewProperty | property_cc.go:108-119 | the record decoded from the concatenated text puts `args[1]` in the folio, `args[2]` in the legal owner, `args[3]` in the beneficial owner, `args[0]` in the address, and status 0 |
| Ledger.SaveProperty | property_cc.go:62-100 | a failed record write changes nothing; otherwise the record is stored and keys other than the folio and `"allProps"` keep their values; a failed index write leaves the index as it was; a failed index read makes the new index just the new record; otherwise the record is appended to the old index |
| Ledger.EntryKeyIsNotIndexKey | property_cc.go:77-79 | an index entry backed by a primary record cannot be stored under `"allProps"` |
| Ledger.SavePreservesConsistent | property_cc.go:62-100 | saving a record whose folio is new and is not `"allProps"` keeps the index duplicate-free and fully backed by primary records, whichever write fails |
| Search.ParseField | property_cc.go:203-225 | the `switch` recognises a search type exactly when it is the name of one of the five cases |
| Search.ParseFieldName | property_cc.go:204-218 | each case's name is recognised as that case |
| Search.Filter | property_cc.go:201-221 | the result is no longer than the index, and every entry in it is an index entry that matches the search |
| Search.FilterAppend | property_cc.go:201-221 | filtering a concatenation gives the concatenation of the filtered parts |
| Search.FilterStep | property_cc.go:201-221 | one loop iteration appends the entry exactly when it is selected |
| Search.FilterKeepsSelected | property_cc.go:206-221 | no matching index entry is dropped |
| Search.FilterCounts | property_info.go:192-212 | each matching entry appears as often as it does in the index; nothing is deduplicated |
| Search.FilterIsSubsequence | property_info.go:192-212 | the result keeps the stored order of the index |
| Search.FilterNoneSelected | property_cc.go:201-221 | when no entry matches, the result is empty |
| Search.FilterAll | property_cc.go:204-205 | `ALL` returns the whole index |
| Search.FolioSearchAtMostOne | property_cc.go:206-209 | with distinct folio IDs in the index, a `Folio_ID` search finds at most one entry |
| Envelope.TakeString | property_cc.go:40-42 | reading a string value gives quote-free content, and the content, a quote and the rest rebuild the input |
| Envelope.RenderAsWritten | property_cc.go:40-42 | the text as the code concatenates it has 7 quote characters for plain texts, an odd number, so one string is left open |
| Envelope.Render | property_cc.go:40-42 | the corrected text, with the status closed like the message, has 8 quote characters for plain texts |
| Envelope.ParseOpenStatus | property_cc.go:41-42 | an accepted status part of the text as written is the status opener, a plain status and the closing brace |
| Envelope.ParseAsWritten | property_cc.go:40-42 | any text this reader accepts is exactly the as-written rendering of the message and status it yields |
| Envelope.ParseAsWrittenRender | property_cc.go:40-42 | the as-written rendering reads back: for plain texts, the reader gives back the message and status |
| Envelope.ParseStatus | property_cc.go:41-42 | an accepted status part is the status opener, the status, a closing quote and a brace |
| Envelope.Parse | property_cc.go:39-42 | an accepted text is exactly the corrected rendering of the message and status it yields |
| Envelope.ParseRender | property_cc.go:39-42 | corrected rendering reads back: for plain texts, the envelope gives back its message and status |
| Envelope.AsWrittenUnparsable | property_cc.go:40-42 | the text as the code builds it is never a well-formed envelope, because its status value is not closed |
| PropertyCc.ResponseObject | property_cc.go:39-52 | a reply returns normally exactly when the status is `"0"`; otherwise it is raised as an error; for plain texts its unclosed text carries the given message and status, and is not a well-formed envelope |
| PropertyCc.CorrectedResponseObject | property_cc.go:39-52 | the same split on status `"0"`, with the status value closed: for plain texts the reply is a well-formed envelope that reads back to the given message and status |
| PropertyCc.Init | property_cc.go:54-56 | `Init` returns normally, with message "Successfully Initialized" and status `"0"` |
| PropertyCc.FolioMatches | property_cc.go:126 | the anchored regular expression holds exactly for folio-shaped arguments |
| PropertyCc.FolioAccepted | property_cc.go:109-138 | the guard `folio_ID == "" or not matched` rejects exactly the arguments without the folio shape; the emptiness test never fires |
| PropertyCc.AcceptedFolioIsNotIndexKey | property_cc.go:126 | an accepted folio ID is never `"allProps"` |
| PropertyCc.FolioAcceptsSamples | property_cc.go:126 | `"1/12345"` and `"1.12345"` are accepted |
| PropertyCc.FolioRejectsSamples | property_cc.go:126 | `""`, `"12345"`, `"12/123456"`, `"1-12345"` and `"x1/12345y"` are rejected |
| PropertyCc.Register | property_cc.go:102-165 | an invalid folio, a decode failure, an existing folio or a failed record write each give status `"99"` and leave the ledger unchanged; the call succeeds exactly when validation, decoding, the duplicate check and both writes succeed; on success the record `{args[1], args[2], args[3], args[0], 0}` is stored under `args[1]`, appended to the index, no other key changes, and the status is `"0"` |
| PropertyCc.OrphanRecord | property_cc.go:70-91 | if the index write fails after the record write, the record stays, the index does not list it, and the reply has status `"99"` |
| PropertyCc.RegisterPreservesConsistent | property_cc.go:149-164 | when the duplicate lookup succeeds, Register keeps the index duplicate-free and backed by primary records |
| PropertyCc.LookupFaultDuplicates | property_cc.go:149-154 | when the duplicate lookup fails, a second registration of the same folio succeeds and the index lists that folio twice |
| PropertyCc.SearchLoop | property_cc.go:201-226 | for a known search type the loop returns the filtered index; for an unknown one it fails exactly when some entry is left to visit |
| PropertyCc.GetProperties | property_cc.go:184-231 | a failed index read gives status `"99"`; a known field gives the matching entries in stored order; an unknown field gives an empty success on an empty index and status `"99"` otherwise |
| PropertyCc.Query | property_cc.go:237-303 | an argument count other than 2 gives status `"99"`; `search` gives the filtered index; any other name returns nothing and no error |
| PropertyCc.Invoke | property_cc.go:167-179 | `init` succeeds and writes nothing; `register` runs Register; any other name raises "Received unknown function invocation" and writes nothing |
| PropertyCc.InvokePreservesConsistent | property_cc.go:167-179 | an invocation in which the duplicate lookup succeeds keeps the registry invariant |
| PropertyCc.UnknownFieldDependsOnIndex | property_cc.go:201-229 | an unknown search type gives an empty success on an empty index and status `"99"` on a non-empty one |
| PropertyCc.FolioSearchFindsRecord | property_cc.go:206-209 | in a consistent ledger, a folio search returns at most one entry, and that entry is the primary record stored under the folio |
| PropertyCc.RegisterThenSearch | property_cc.go:149-221 | after a successful registration, `ALL` lists the new record after the earlier ones, and registering the same folio again is refused with no writes |
| PropertyCc.RegisterOnEmptyLedger | property_cc.go:102-231 | registering `1/12345` on an empty ledger and searching `ALL` returns exactly that record |
| PropertyInfo.Init | property_info.go:43-45 | `Init` returns neither a payload nor an error |
| PropertyInfo.FolioAccepted | property_info.go:99-125 | the unanchored check on the wrapped fragment accepts exactly the arguments that contain a folio-shaped window; the emptiness test never fires |
| PropertyInfo.AcceptedFolioIsNotIndexKey | property_info.go:115 | an accepted folio ID is never `"allProps"`, which has no digits |
| PropertyInfo.AcceptsMoreThanAnchored | property_info.go:115 | every ID the anchored variant accepts is accepted here, and `"x1/12345y"` is accepted here but not there |
| PropertyInfo.FolioSamples | property_info.go:115 | `"1/12345"` and `"12/123456"` are accepted; `"12345"`, `"abc"` and `""` are rejected |
| PropertyInfo.SaveProperty | property_info.go:52-90 | the writes are the shared ones; a failed write raises the host's error; after both writes succeed, a failed read-back still raises "Failed to get all Properties" |
| PropertyInfo.Register | property_info.go:92-156 | an invalid folio, a decode failure, an existing folio or a failed record write each raise an error and leave the ledger unchanged; the call succeeds exactly when every step succeeds; on success the record is stored under `args[1]`, appended to the index, no other key changes, and the fixed registration text is returned |
| PropertyInfo.OrphanRecord | property_info.go:60-81 | if the index write fails after the record write, the record stays, the index does not list it, and the host's error is raised |
| PropertyInfo.ReadBackFaultAfterWrites | property_info.go:83-87 | a failed read-back reports an error even though the record and its index entry are both written |
| PropertyInfo.RegisterPreservesConsistent | property_info.go:135-146 | when the duplicate lookup succeeds, Register keeps the registry invariant |
| PropertyInfo.SearchLoop | property_info.go:192-216 | for a known search type the loop returns the filtered index; for an unknown one it returns what it started with |
| PropertyInfo.GetProperties | property_info.go:175-221 | a failed index read raises an error; a known field gives the matching entries in stored order; an unknown field gives no entries and no error |
| PropertyInfo.Query | property_info.go:227-293 | an argument count other than 2 raises an error; `search` gives the filtered index, or no entries for an unknown field; any other name returns nothing and no error |
| PropertyInfo.Invoke | property_info.go:158-170 | `init` returns nothing and writes nothing; `register` runs Register; any other name raises an error and writes nothing |
| PropertyInfo.InvokePreservesConsistent | property_info.go:158-170 | an invocation in which the duplicate lookup succeeds keeps the registry invariant |
| PropertyInfo.UnknownFieldFindsNothing | property_info.go:213-219 | an unknown search type returns no entries and no error, whatever the index holds |

## Left out

- Byte encodings are not modelled. This covers `encoding/json` marshalling of
  records, of the index and of search results, and two success payloads that
  the code marshals into a JSON string literal: that of `responseObject`
  (property_cc.go:48) and the registration text of `property_info.go`
  (property_info.go:153).
  Stored values and payloads are structured values instead. Strings are
  assumed to survive a JSON round trip, so invalid UTF-8 is not modelled.
- Decoding the text Register concatenates is a single host-chosen flag,
  `decodeFails`. When decoding succeeds it yields the fields
  `[address, folio, legal owner, beneficial owner]` unchanged. The model does
  not capture how quotes or backslashes in the arguments change what decodes.
  The duplicate check and the primary write use the decoded folio
  (property_cc.go:149 and 70, property_info.go:135 and 60), and in the
  decoded object the last `"Folio_ID"` key wins. So an argument holding a
  quote can inject a second folio, as `args[3] = x", "Folio_ID":"allProps`
  does. The model takes the decoded folio to be `args[1]`, and the next
  three lines depend on that.
- PropertyCc.AcceptedFolioIsNotIndexKey: holds of `args[1]`, not of an
  injected folio, which can be `"allProps"`. When the duplicate lookup
  answers, it refuses such a folio if the index key exists, so nothing
  stored is overwritten. When the lookup fails, its error is ignored and the
  injected record is written over the index; the index read then finds no
  list, and the index is rewritten as just that record, dropping every
  earlier entry.
- PropertyCc.RegisterPreservesConsistent: is proved only for a decoded folio
  equal to `args[1]`. An injected folio that is new and is not `"allProps"`
  keeps the invariant as well. An injected `"allProps"` on a ledger without
  that key has its record written there and then replaced by the index
  write, which leaves an index entry that no primary record backs.
- PropertyInfo.RegisterPreservesConsistent: the same restriction as in the
  other variant; PropertyInfo.AcceptedFolioIsNotIndexKey likewise speaks of
  `args[1]` only.
- An index value that cannot be decoded reads as empty, as in the code. The
  only non-index value the model can hold under `"allProps"` is a primary
  record.
- The error branch of `regexp.Match` is left out. Its patterns are constant
  and always compile, so "Invalid Folio Identifier" can never be returned.
- Register indexes `args[0..3]` without checking the length, so fewer than
  four arguments make Go panic. `Register` therefore requires at least four
  arguments. Arguments after the fourth are ignored, as in the code.
- `responseObject` also takes a function name, which it only prints.
  `ResponseObject` drops it.
- The replies of `property_cc.go` carry the unclosed text the code
  concatenates; the corrected responder is modelled beside it (see Findings)
  but no operation uses it.
- Not modelled: printing, `main`, `shim.Start`, and the commented-out range
  query in both `Query` functions.
- Concurrent transactions are not modelled. The host serialises them, so
  each operation is one atomic step over the map, apart from the host faults
  it is given.
- A nil result list marshals as `null` rather than `[]`. The model does not
  distinguish the two; both are `Matches([])`.
- The code has no delete, update, or owner-pair handling. No model of them
  exists.

## Findings

| source | as written | input that shows it | evidently intended | confidence | as-written member | corrected member |
|---|---|---|---|---|---|---|
| property_cc.go:41-42 | `"\"status\":\"" + status` followed by `"}"` leaves the status string open, so the envelope is `{"message":"m", "status":"s}` | every reply, e.g. `Init` gives `{"message":"Successfully Initialized", "status":"0}` | `{"message":"m", "status":"s"}` with the status closed | high; not executed | Envelope.AsWrittenUnparsable | PropertyCc.CorrectedResponseObject |

=== FILE: envelope.dfy ===
/**
  The response text `responseObject` builds: a message and a status in a
  JSON-like object. `RenderAsWritten` is the text the chaincode concatenates,
  whose status value is never closed, and `ParseAsWritten` reads that text
  back. `Render` is the object with both string values closed, and `Parse`
  reads that intended shape back.
*/
module Envelope {
  import opened Wrappers

  const Quote: char := '"'

  /** `{"message":"` — the text before the message. */
  const MessageOpen: string := "{\"message\":\""

  /** `, "status":"` — the text between the closing quote of the message and the status. */
  const StatusOpen: string := ", \"status\":\""

  /** Text that needs no escaping inside a JSON string: no quote and no backslash. */
  predicate Plain(s: string) {
    forall k :: 0 <= k < |s| ==> s[k] != Quote && s[k] != '\\'
  }

  /** The number of quote characters in `s`. */
  function QuoteCount(s: string): nat {
    if s == [] then 0 else (if s[0] == Quote then 1 else 0) + QuoteCount(s[1..])
  }

  /**
    The response text as the chaincode concatenates it: the closing quote of
    the status is missing, so for plain texts it holds an odd number of
    quotes and one string is left open.
  */
  function RenderAsWritten(message: string, status: string): (r: string)
    ensures Plain(message) && Plain(status) ==> QuoteCount(r) == 7
  {
    var r := MessageOpen + message + [Quote] + StatusOpen + status + "}";
    if Plain(message) && Plain(status) then
      QuoteCountPlain("}");
      RenderedQuotes(message, status, "}");
      r
    else r
  }

  /**
    The response text with the status value closed: for plain texts every
    string it opens is closed, so it holds an even number of quotes.
  */
  function Render(message: string, status: string): (r: string)
    ensures Plain(message) && Plain(status) ==> QuoteCount(r) == 8
  {
    var tail := [Quote] + "}";
    var r := MessageOpen + message + [Quote] + StatusOpen + status + tail;
    if Plain(message) && Plain(status) then
      assert QuoteCount([Quote]) == 1;
      QuoteCountPlain("}");
      QuoteCountAppend([Quote], "}");
      RenderedQuotes(message, status, tail);
      assert r == MessageOpen + message + [Quote] + StatusOpen + status + [Quote] + "}";
      r
    else r
  }

  /** Reads string content up to the first quote; yields the content and what follows that quote. */
  function TakeString(s: string): (r: Option<(string, string)>)
    ensures r.Some? ==> Plain(r.value.0) && s == r.value.0 + [Quote] + r.value.1
  {
    if s == [] then None
    else if s[0] == Quote then Some(([], s[1..]))
    else if s[0] == '\\' then None
    else
      match TakeString(s[1..])
      case None => None
      case Some((content, rest)) => Some(([s[0]] + content, rest))
  }

  /** Splitting after a known prefix and reading the rest as `body` gives back the whole. */
  lemma Reassemble(whole: string, prefix: string, body: string, a: string, b: string, c: string)
    requires |prefix| <= |whole| && whole[..|prefix|] == prefix && whole[|prefix|..] == a + b + c
    requires body == a + b + c
    ensures whole == prefix + a + b + c
  {
    assert whole == whole[..|prefix|] + whole[|prefix|..];
  }

  /** Reads the part after the message: the status opener, the status, its closing quote and the brace. */
  function ParseStatus(rest: string): (r: Option<string>)
    ensures r.Some? ==> Plain(r.value) && rest == StatusOpen + r.value + [Quote] + "}"
  {
    if |rest| < |StatusOpen| || rest[..|StatusOpen|] != StatusOpen then None
    else
      match TakeString(rest[|StatusOpen|..])
      case None => None
      case Some((status, tail)) =>
        if tail == "}" then
          Reassemble(rest, StatusOpen, rest[|StatusOpen|..], status, [Quote], "}");
          Some(status)
        else None
  }

  /** Reads a response text back into its message and status, if it has the intended shape. */
  function Parse(text: string): (r: Option<(string, string)>)
    ensures r.Some? ==> Plain(r.value.0) && Plain(r.value.1) && Render(r.value.0, r.value.1) == text
  {
    if |text| < |MessageOpen| || text[..|MessageOpen|] != MessageOpen then None
    else
      match TakeString(text[|MessageOpen|..])
      case None => None
      case Some((message, rest)) =>
        match ParseStatus(rest)
        case None => None
        case Some(status) =>
          Reassemble(text, MessageOpen, text[|MessageOpen|..], message, [Quote], rest);
          RenderSplit(message, status);
          Some((message, status))
  }

  /**
    Reads the part after the message in the text as written: the status
    opener, a plain status, and the brace that ends the text.
  */
  function ParseOpenStatus(rest: string): (r: Option<string>)
    ensures r.Some? ==> Plain(r.value) && rest == StatusOpen + r.value + "}"
  {
    if |rest| < |StatusOpen| + 1 || rest[..|StatusOpen|] != StatusOpen || rest[|rest| - 1] != '}' then None
    else
      var status := rest[|StatusOpen|..|rest| - 1];
      if Plain(status) then
        assert rest == rest[..|StatusOpen|] + status + rest[|rest| - 1..];
        Some(status)
      else None
  }

  /** Reads a response text as the chaincode writes it back into its message and status. */
  function ParseAsWritten(text: string): (r: Option<(string, string)>)
    ensures r.Some? ==> Plain(r.value.0) && Plain(r.value.1) && RenderAsWritten(r.value.0, r.value.1) == text
  {
    if |text| < |MessageOpen| || text[..|MessageOpen|] != MessageOpen then None
    else
      match TakeString(text[|MessageOpen|..])
      case None => None
      case Some((message, rest)) =>
        match ParseOpenStatus(rest)
        case None => None
        case Some(status) =>
          Reassemble(text, MessageOpen, text[|MessageOpen|..], message, [Quote], rest);
          assert RenderAsWritten(message, status) == MessageOpen + message + [Quote] + (StatusOpen + status + "}");
          Some((message, status))
  }

  /** Plain message and status texts come back unchanged from the text as written. */
  lemma ParseAsWrittenRender(message: string, status: string)
    requires Plain(message) && Plain(status)
    ensures ParseAsWritten(RenderAsWritten(message, status)) == Some((message, status))
  {
    var rest := StatusOpen + status + "}";
    var text := RenderAsWritten(message, status);
    assert text == MessageOpen + (message + [Quote] + rest);
    assert text[..|MessageOpen|] == MessageOpen;
    assert text[|MessageOpen|..] == message + [Quote] + rest;
    TakePlain(message, rest);
    assert rest[..|StatusOpen|] == StatusOpen;
    assert rest[|StatusOpen|..|rest| - 1] == status;
    assert ParseOpenStatus(rest) == Some(status);
  }

  /** `Render` is the message part followed by the status part. */
  lemma RenderSplit(message: string, status: string)
    ensures Render(message, status) == MessageOpen + message + [Quote] + (StatusOpen + status + [Quote] + "}")
  {
  }

  /** Plain content followed by a quote is read back up to that quote. */
  lemma {:induction false} TakePlain(content: string, rest: string)
    requires Plain(content)
    ensures TakeString(content + [Quote] + rest) == Some((content, rest))
  {
    if content != [] {
      assert (content + [Quote] + rest)[1..] == content[1..] + [Quote] + rest;
      TakePlain(content[1..], rest);
      assert [content[0]] + content[1..] == content;
    } else {
      assert content + [Quote] + rest == [Quote] + rest;
    }
  }

  /** Plain content followed by a brace, with no quote, is not a closed string. */
  lemma {:induction false} TakeUnclosed(s: string)
    requires Plain(s)
    ensures TakeString(s + "}") == None
  {
    if s != [] {
      assert (s + "}")[1..] == s[1..] + "}";
      TakeUnclosed(s[1..]);
    }
  }

  /** Quote counts add up over concatenation. */
  lemma {:induction false} QuoteCountAppend(a: string, b: string)
    ensures QuoteCount(a + b) == QuoteCount(a) + QuoteCount(b)
  {
    if a != [] {
      assert (a + b)[1..] == a[1..] + b;
      QuoteCountAppend(a[1..], b);
    } else {
      assert a + b == b;
    }
  }

  /** Plain text holds no quote. */
  lemma {:induction false} QuoteCountPlain(s: string)
    requires Plain(s)
    ensures QuoteCount(s) == 0
  {
    if s != [] {
      QuoteCountPlain(s[1..]);
    }
  }

  /** Plain message and status texts come back unchanged from the rendered response. */
  lemma ParseRender(message: string, status: string)
    requires Plain(message) && Plain(status)
    ensures Parse(Render(message, status)) == Some((message, status))
  {
    var rest := StatusOpen + status + [Quote] + "}";
    var text := Render(message, status);
    assert text == MessageOpen + (message + [Quote] + rest);
    assert text[..|MessageOpen|] == MessageOpen;
    assert text[|MessageOpen|..] == message + [Quote] + rest;
    TakePlain(message, rest);
    assert rest == StatusOpen + (status + [Quote] + "}");
    assert rest[..|StatusOpen|] == StatusOpen;
    assert rest[|StatusOpen|..] == status + [Quote] + "}";
    TakePlain(status, "}");
    assert ParseStatus(rest) == Some(status);
  }

  /** The text as written never reads back: its status value runs into the closing brace. */
  lemma AsWrittenUnparsable(message: string, status: string)
    requires Plain(message) && Plain(status)
    ensures Parse(RenderAsWritten(message, status)) == None
  {
    var rest := StatusOpen + status + "}";
    var text := RenderAsWritten(message, status);
    assert text == MessageOpen + (message + [Quote] + rest);
    assert text[..|MessageOpen|] == MessageOpen;
    assert text[|MessageOpen|..] == message + [Quote] + rest;
    TakePlain(message, rest);
    assert rest == StatusOpen + (status + "}");
    assert rest[..|StatusOpen|] == StatusOpen;
    assert rest[|StatusOpen|..] == status + "}";
    TakeUnclosed(status);
    assert ParseStatus(rest) == None;
  }

  /** `[Quote] + word + [Quote] + ":" + [Quote]` holds three quotes when `word` is plain. */
  lemma {:induction false} KeyQuotes(lead: string, word: string)
    requires Plain(lead) && Plain(word)
    ensures QuoteCount(lead + [Quote] + word + [Quote] + ":" + [Quote]) == 3
  {
    QuoteCountPlain(lead);
    QuoteCountPlain(word);
    QuoteCountPlain(":");
    assert QuoteCount([Quote]) == 1;
    var a := lead + [Quote];
    QuoteCountAppend(lead, [Quote]);
    var b := a + word;
    QuoteCountAppend(a, word);
    var c := b + [Quote];
    QuoteCountAppend(b, [Quote]);
    var d := c + ":";
    QuoteCountAppend(c, ":");
    QuoteCountAppend(d, [Quote]);
  }

  /** The text before the message opens the key `message`, closes it and opens its value: three quotes. */
  lemma MessageOpenQuotes()
    ensures QuoteCount(MessageOpen) == 3
  {
    assert MessageOpen == "{" + [Quote] + "message" + [Quote] + ":" + [Quote];
    assert Plain("message");
    KeyQuotes("{", "message");
  }

  /** The text before the status opens the key `status`, closes it and opens its value: three quotes. */
  lemma StatusOpenQuotes()
    ensures QuoteCount(StatusOpen) == 3
  {
    assert StatusOpen == ", " + [Quote] + "status" + [Quote] + ":" + [Quote];
    assert Plain("status");
    KeyQuotes(", ", "status");
  }

  /** The rendered text up to the status value holds seven quotes, whatever follows it. */
  lemma RenderedQuotes(message: string, status: string, tail: string)
    requires Plain(message) && Plain(status)
    ensures QuoteCount(MessageOpen + message + [Quote] + StatusOpen + status + tail) == 7 + QuoteCount(tail)
  {
    MessageOpenQuotes();
    StatusOpenQuotes();
    QuoteCountPlain(message);
    QuoteCountPlain(status);
    assert QuoteCount([Quote]) == 1;
    QuoteCountAppend(MessageOpen, message);
    QuoteCountAppend(MessageOpen + message, [Quote]);
    QuoteCountAppend(MessageOpen + message + [Quote], StatusOpen);
    QuoteCountAppend(MessageOpen + message + [Quote] + StatusOpen, status);
    QuoteCountAppend(MessageOpen + message + [Quote] + StatusOpen + status, tail);
  }
}

=== FILE: folio.dfy ===
/**
  The folio identifier pattern `[0-9]{1}[/.][0-9]{5}` used by both chaincode
  variants, hand-coded as a matcher over a sequence of character classes.
  `MatchHere` is the pattern matched at the start of a string; anchoring at
  both ends (`^...$`) and searching anywhere (no anchors) are built on it.
*/
module Folio {

  /** The two character classes of the pattern: `[0-9]` and `[/.]`. */
  datatype CharClass = Digit | Separator

  predicate IsDigit(c: char) {
    '0' <= c <= '9'
  }

  predicate IsSeparator(c: char) {
    c == '/' || c == '.'
  }

  predicate InClass(c: char, k: CharClass) {
    match k
    case Digit => IsDigit(c)
    case Separator => IsSeparator(c)
  }

  /** `[0-9]{1}[/.][0-9]{5}` written out one class per character. */
  const Pattern: seq<CharClass> := [Digit, Separator, Digit, Digit, Digit, Digit, Digit]

  /** The folio shape itself: one digit, one separator, then five digits. */
  predicate Shape(s: string) {
    && |s| == 7
    && IsDigit(s[0])
    && IsSeparator(s[1])
    && forall k :: 2 <= k < 7 ==> IsDigit(s[k])
  }

  /** The seven characters of `s` starting at `i` have the folio shape. */
  predicate ShapeAt(s: string, i: int) {
    0 <= i && i + 7 <= |s| && Shape(s[i..i + 7])
  }

  /** Some seven-character window of `s` has the folio shape. */
  predicate ContainsShape(s: string) {
    exists i :: 0 <= i <= |s| && ShapeAt(s, i)
  }

  /** No character of `s` is a digit. */
  predicate NoDigits(s: string) {
    forall k :: 0 <= k < |s| ==> !IsDigit(s[k])
  }

  /** `"Folio_ID":"` — the text Register puts before the folio argument. */
  const FieldPrefix: string := "\"Folio_ID\":\""

  /** `", ` — the text Register puts after the folio argument. */
  const FieldSuffix: string := "\", "

  /** Matches `pat` against the beginning of `s`, one class per character. */
  function MatchHere(pat: seq<CharClass>, s: string): bool {
    if pat == [] then true
    else |s| > 0 && InClass(s[0], pat[0]) && MatchHere(pat[1..], s[1..])
  }

  /**
    The pattern anchored at both ends, as with `^pat$`: the string is as long
    as the pattern and each class accepts its character.
  */
  function MatchWhole(pat: seq<CharClass>, s: string): (r: bool)
    ensures r <==> |s| == |pat| && forall k :: 0 <= k < |pat| ==> InClass(s[k], pat[k])
  {
    MatchHereClasses(pat, s);
    MatchHere(pat, s) && |s| == |pat|
  }

  /** The pattern without anchors: a match may start at any position, that is, at the start of some suffix. */
  function MatchAnywhere(pat: seq<CharClass>, s: string): (r: bool)
    ensures r <==> exists i :: 0 <= i <= |s| && MatchHere(pat, s[i..])
    decreases |s|
  {
    if MatchHere(pat, s) then
      assert s[0..] == s;
      true
    else if |s| == 0 then
      assert forall i :: 0 <= i <= |s| ==> s[i..] == s;
      false
    else
      var rest := MatchAnywhere(pat, s[1..]);
      SuffixShift(pat, s);
      rest
  }

  /** A match in some suffix of `s` is a match at its start or in some suffix of its tail. */
  lemma SuffixShift(pat: seq<CharClass>, s: string)
    requires |s| > 0
    ensures (exists i :: 0 <= i <= |s| && MatchHere(pat, s[i..]))
        <==> MatchHere(pat, s) || exists i :: 0 <= i <= |s| - 1 && MatchHere(pat, s[1..][i..])
  {
    if exists i :: 0 <= i <= |s| - 1 && MatchHere(pat, s[1..][i..]) {
      var i :| 0 <= i <= |s| - 1 && MatchHere(pat, s[1..][i..]);
      assert s[1..][i..] == s[i + 1..];
      assert MatchHere(pat, s[i + 1..]);
    }
    if MatchHere(pat, s) {
      assert s[0..] == s;
    }
    if exists i :: 0 <= i <= |s| && MatchHere(pat, s[i..]) {
      var i :| 0 <= i <= |s| && MatchHere(pat, s[i..]);
      if i == 0 {
        assert s[0..] == s;
      } else {
        assert s[1..][i - 1..] == s[i..];
        assert MatchHere(pat, s[1..][i - 1..]);
      }
    }
  }

  /** Matching at the start means every class accepts its character. */
  lemma {:induction false} MatchHereClasses(pat: seq<CharClass>, s: string)
    ensures MatchHere(pat, s) <==> |pat| <= |s| && forall k :: 0 <= k < |pat| ==> InClass(s[k], pat[k])
  {
    if pat != [] && |s| > 0 {
      MatchHereClasses(pat[1..], s[1..]);
      if |pat| <= |s| && forall k :: 0 <= k < |pat| ==> InClass(s[k], pat[k]) {
        forall k | 0 <= k < |pat| - 1
          ensures InClass(s[1..][k], pat[1..][k])
        {
          assert InClass(s[k + 1], pat[k + 1]);
        }
      }
      if MatchHere(pat, s) {
        forall k | 0 <= k < |pat|
          ensures InClass(s[k], pat[k])
        {
          if k > 0 {
            assert InClass(s[1..][k - 1], pat[1..][k - 1]);
          }
        }
      }
    }
  }

  /** A match of `Pattern` at the start is a folio-shaped seven-character prefix. */
  lemma PatternHere(s: string)
    ensures MatchHere(Pattern, s) <==> |s| >= 7 && Shape(s[..7])
  {
    MatchHereClasses(Pattern, s);
    if |s| >= 7 && Shape(s[..7]) {
      forall k | 0 <= k < 7
        ensures InClass(s[k], Pattern[k])
      {
        assert s[k] == s[..7][k];
      }
    }
    if MatchHere(Pattern, s) {
      assert forall k :: 0 <= k < 7 ==> InClass(s[k], Pattern[k]);
      forall k | 2 <= k < 7
        ensures IsDigit(s[..7][k])
      {
        assert InClass(s[k], Pattern[k]);
      }
    }
  }

  /** The anchored matcher accepts exactly the folio-shaped strings. */
  lemma WholeIsShape(s: string)
    ensures MatchWhole(Pattern, s) <==> Shape(s)
  {
    PatternHere(s);
    if |s| == 7 {
      assert s[..7] == s;
    }
  }

  /** The unanchored matcher accepts exactly the strings with a folio-shaped window. */
  lemma AnywhereIsWindow(s: string)
    ensures MatchAnywhere(Pattern, s) <==> ContainsShape(s)
  {
    if MatchAnywhere(Pattern, s) {
      var i :| 0 <= i <= |s| && MatchHere(Pattern, s[i..]);
      PatternHere(s[i..]);
      assert s[i..][..7] == s[i..i + 7];
      assert ShapeAt(s, i);
    }
    if ContainsShape(s) {
      var i :| 0 <= i <= |s| && ShapeAt(s, i);
      assert i + 7 <= |s|;
      PatternHere(s[i..]);
      assert s[i..][..7] == s[i..i + 7];
      assert MatchHere(Pattern, s[i..]);
    }
  }

  /**
    Surrounding a string with text that holds no digit neither creates nor
    destroys a folio-shaped window: every window begins and ends with a digit.
  */
  lemma WrappedWindow(prefix: string, s: string, suffix: string)
    requires NoDigits(prefix) && NoDigits(suffix)
    ensures ContainsShape(prefix + s + suffix) <==> ContainsShape(s)
  {
    var w := prefix + s + suffix;
    if ContainsShape(s) {
      var i :| 0 <= i <= |s| && ShapeAt(s, i);
      assert i + 7 <= |s|;
      var j := i + |prefix|;
      assert w[j..j + 7] == s[i..i + 7];
      assert ShapeAt(w, j);
    }
    if ContainsShape(w) {
      var j :| 0 <= j <= |w| && ShapeAt(w, j);
      assert j + 7 <= |w|;
      assert IsDigit(w[j..j + 7][0]) && IsDigit(w[j..j + 7][6]);
      var i := j - |prefix|;
      assert s[i..i + 7] == w[j..j + 7];
      assert ShapeAt(s, i);
    }
  }

  /** A string without digits has no folio-shaped window. */
  lemma NoDigitsNoWindow(s: string)
    requires NoDigits(s)
    ensures !ContainsShape(s)
  {
  }

  /**
    The JSON fragment Register builds around the folio argument. It is never
    empty, and it has a folio-shaped window exactly when the argument has
    one: neither of the surrounding texts holds a digit.
  */
  function FolioField(folio: string): (r: string)
    ensures r != ""
    ensures ContainsShape(r) <==> ContainsShape(folio)
  {
    assert NoDigits(FieldPrefix) && NoDigits(FieldSuffix);
    WrappedWindow(FieldPrefix, folio, FieldSuffix);
    FieldPrefix + folio + FieldSuffix
  }
}

=== FILE: ledger.dfy ===
/**
  The ledger as the registry sees it: one key space of values, holding
  primary `Property` records under their folio IDs and the denormalised
  `AllProperties` index under the key "allProps". Host calls (`GetState`,
  `PutState`) are map reads and writes; whether each call fails is a flag of
  `Faults`, chosen by the host.
*/
module Ledger {
  import opened Wrappers

  /** One registered property; `status` is 0 for every record this code creates. */
  datatype Property = Property(
    folioId: string,
    legalOwner: string,
    beneficialOwner: string,
    address: string,
    status: int)

  /** A stored value: a primary record, or the `AllProperties` list. */
  datatype Value = Record(property: Property) | IndexBlob(entries: seq<Property>)

  type Store = map<string, Value>

  /** The well-known key of the `AllProperties` index. */
  const IndexKey: string := "allProps"

  /**
    The index as the code reads it: the stored list, or the empty list when
    the key is absent or does not hold a list (decode errors are ignored).
  */
  function IndexOf(st: Store): (r: seq<Property>)
    ensures IndexKey !in st ==> r == []
    ensures forall e :: IndexKey in st && st[IndexKey] == IndexBlob(e) ==> r == e
    ensures r == [] || (IndexKey in st && st[IndexKey] == IndexBlob(r))
  {
    if IndexKey in st && st[IndexKey].IndexBlob? then st[IndexKey].entries else []
  }

  /**
    The index read after a write to the index key returns what was written;
    a write under any other key does not change what the index read returns.
  */
  lemma IndexReadAfterWrite(st: Store, entries: seq<Property>, k: string, v: Value)
    ensures IndexOf(st[IndexKey := IndexBlob(entries)]) == entries
    ensures k != IndexKey ==> IndexOf(st[k := v]) == IndexOf(st)
  {
  }

  /** An error value returned to the host: one raised by the host itself, or one built from a message. */
  datatype Error = HostError | Message(text: string)

  /** The byte payload of a normal return, abstracted. */
  datatype Body = Nothing | Text(text: string) | Matches(properties: seq<Property>)

  /** The `([]byte, error)` pair of a Go handler: a payload and no error, or an error. */
  datatype Reply = Returned(body: Body) | Raised(error: Error)

  /** Which host steps fail during one invocation. */
  datatype Faults = Faults(
    decodeFails: bool,       // json.Unmarshal of the concatenated record text fails
    recordReadFails: bool,   // GetState(folio) in the duplicate check errs (and yields nil)
    recordWriteFails: bool,  // PutState(folio, record) errs
    indexReadFails: bool,    // GetState("allProps") errs (and yields nil)
    indexWriteFails: bool,   // PutState("allProps", index) errs
    readBackFails: bool)     // the extra GetState("allProps") after the index write errs

  const NoFaults: Faults := Faults(false, false, false, false, false, false)

  /**
    The record Register builds from its arguments once the concatenated text
    decodes: `[address, folio, legal owner, beneficial owner]`.
  */
  function NewProperty(args: seq<string>): (p: Property)
    requires |args| >= 4
    ensures p.folioId == args[1] && p.legalOwner == args[2] && p.beneficialOwner == args[3]
    ensures p.address == args[0] && p.status == 0
  {
    Property(args[1], args[2], args[3], args[0], 0)
  }

  /** The store after `saveProperty`, and the error it returned, if any. */
  datatype Saved = Saved(store: Store, error: Option<Error>)

  /** `a` and `b` agree on every key outside `keys`. */
  ghost predicate SameOutside(a: Store, b: Store, keys: set<string>) {
    forall k :: k !in keys ==> (k in a <==> k in b) && (k in a ==> a[k] == b[k])
  }

  /**
    `saveProperty`: write the record under its folio ID, read the index
    (a failed read counts as empty), append the record and write the index
    back. The two writes are separate; nothing undoes the first when the
    second fails.
  */
  function SaveProperty(st: Store, p: Property, f: Faults): (s: Saved)
    ensures f.recordWriteFails ==> s == Saved(st, Some(HostError))
    ensures !f.recordWriteFails && p.folioId != IndexKey ==>
      && p.folioId in s.store && s.store[p.folioId] == Record(p)
      && SameOutside(st, s.store, {p.folioId, IndexKey})
    ensures !f.recordWriteFails && f.indexWriteFails && p.folioId != IndexKey ==>
      && s.error == Some(HostError)
      && IndexOf(s.store) == IndexOf(st)
    ensures !f.recordWriteFails && !f.indexWriteFails && p.folioId != IndexKey ==>
      && s.error == None
      && IndexOf(s.store) == (if f.indexReadFails then [] else IndexOf(st)) + [p]
  {
    if f.recordWriteFails then Saved(st, Some(HostError))
    else
      var written := st[p.folioId := Record(p)];
      var props := if f.indexReadFails then [] else IndexOf(written);
      if f.indexWriteFails then Saved(written, Some(HostError))
      else Saved(written[IndexKey := IndexBlob(props + [p])], None)
  }

  /** No two index entries carry the same folio ID. */
  predicate UniqueFolios(idx: seq<Property>) {
    forall i, j :: 0 <= i < j < |idx| ==> idx[i].folioId != idx[j].folioId
  }

  /** Every index entry is the primary record stored under its folio ID. */
  predicate Backed(st: Store) {
    forall e :: e in IndexOf(st) ==> e.folioId in st && st[e.folioId] == Record(e)
  }

  /** The registry invariant: a duplicate-free index whose entries are all primary records. */
  predicate Consistent(st: Store) {
    UniqueFolios(IndexOf(st)) && Backed(st)
  }

  /** An index entry is never stored under the index key itself. */
  lemma EntryKeyIsNotIndexKey(st: Store, e: Property)
    requires Backed(st) && e in IndexOf(st)
    ensures e.folioId != IndexKey
  {
  }

  /**
    Saving a record whose folio ID is neither present nor the index key keeps
    the store consistent, whichever host step fails.
  */
  lemma SavePreservesConsistent(st: Store, p: Property, f: Faults)
    requires Consistent(st)
    requires p.folioId !in st && p.folioId != IndexKey
    ensures Consistent(SaveProperty(st, p, f).store)
  {
    var s := SaveProperty(st, p, f).store;
    if !f.recordWriteFails {
      var before := IndexOf(st);
      forall e | e in before
        ensures e.folioId != p.folioId && e.folioId != IndexKey
      {
        EntryKeyIsNotIndexKey(st, e);
      }
      if !f.indexWriteFails && !f.indexReadFails {
        var idx := before + [p];
        assert IndexOf(s) == idx;
        forall i, j | 0 <= i < j < |idx|
          ensures idx[i].folioId != idx[j].folioId
        {
          if j == |before| {
            assert idx[i] in before;
          } else {
            assert idx[i] == before[i] && idx[j] == before[j];
          }
        }
        forall e | e in IndexOf(s)
          ensures e.folioId in s && s[e.folioId] == Record(e)
        {
          if e != p {
            assert e in before;
          }
        }
      }
    }
  }
}

=== FILE: property_cc.dfy ===
/**
  The `property_cc.go` variant of the registry chaincode: an anchored folio
  check on the raw argument, every outcome reported through
  `responseObject`, and a search that fails on an unknown search type from
  inside its loop.
*/
module PropertyCc {
  import opened Wrappers
  import opened Ledger
  import opened Search
  import Folio
  import Envelope

  /** The response text a reply carries, or "" when it carries none. */
  function ReplyText(r: Reply): string {
    match r
    case Returned(Text(text)) => text
    case Raised(Message(text)) => text
    case _ => ""
  }

  /** The message and status a reply carries, read back from its text as the chaincode writes it. */
  function EnvelopeOf(r: Reply): Option<(string, string)> {
    Envelope.ParseAsWritten(ReplyText(r))
  }

  /**
    `responseObject`: status "0" returns the envelope text as the payload;
    any other status raises it as the error. The function name it also takes
    is only printed. For plain texts the reply carries the given message and
    status, in a text that is not a well-formed envelope because the status
    value is never closed.
  */
  function ResponseObject(message: string, status: string): (r: Reply)
    ensures r.Returned? <==> status == "0"
    ensures Envelope.Plain(message) && Envelope.Plain(status) ==> EnvelopeOf(r) == Some((message, status))
    ensures Envelope.Plain(message) && Envelope.Plain(status) ==> Envelope.Parse(ReplyText(r)) == None
  {
    var text := Envelope.RenderAsWritten(message, status);
    var r := if status != "0" then Raised(Message(text)) else Returned(Text(text));
    if Envelope.Plain(message) && Envelope.Plain(status) then
      Envelope.ParseAsWrittenRender(message, status);
      Envelope.AsWrittenUnparsable(message, status);
      r
    else r
  }

  /**
    `responseObject` with the status value closed, as the message value
    already is: the same normal and raised cases, and the text is a
    well-formed envelope that reads back to the given message and status.
  */
  function CorrectedResponseObject(message: string, status: string): (r: Reply)
    ensures r.Returned? <==> status == "0"
    ensures Envelope.Plain(message) && Envelope.Plain(status) ==> Envelope.Parse(ReplyText(r)) == Some((message, status))
  {
    var text := Envelope.Render(message, status);
    var r := if status != "0" then Raised(Message(text)) else Returned(Text(text));
    if Envelope.Plain(message) && Envelope.Plain(status) then
      Envelope.ParseRender(message, status);
      r
    else r
  }

  /** `Init`: a success envelope and no change to the ledger. */
  function Init(): (r: Reply)
    ensures r.Returned? && EnvelopeOf(r) == Some(("Successfully Initialized", "0"))
  {
    assert Envelope.Plain("Successfully Initialized");
    ResponseObject("Successfully Initialized", "0")
  }

  /** `regexp.Match("^[0-9]{1}[/.][0-9]{5}$", args[1])`. */
  function FolioMatches(folio: string): (r: bool)
    ensures r <==> Folio.Shape(folio)
  {
    Folio.WholeIsShape(folio);
    Folio.MatchWhole(Folio.Pattern, folio)
  }

  /** The folio guard of Register: the wrapped fragment is non-empty and the raw argument matches. */
  function FolioAccepted(folio: string): (r: bool)
    ensures r <==> Folio.Shape(folio)
  {
    !(Folio.FolioField(folio) == "" || !FolioMatches(folio))
  }

  /** No accepted folio ID is the index key, so a primary write never overwrites the index. */
  lemma AcceptedFolioIsNotIndexKey(folio: string)
    requires FolioAccepted(folio)
    ensures folio != IndexKey
  {
  }

  /** One digit, a slash or a dot, five digits: accepted. */
  lemma FolioAcceptsSamples()
    ensures FolioAccepted("1/12345") && FolioAccepted("1.12345")
  {
    assert Folio.Shape("1/12345");
    assert Folio.Shape("1.12345");
  }

  /** Empty, too short, too long, a wrong separator, or extra text around the shape: rejected. */
  lemma FolioRejectsSamples()
    ensures !FolioAccepted("") && !FolioAccepted("12345") && !FolioAccepted("12/123456")
    ensures !FolioAccepted("1-12345") && !FolioAccepted("x1/12345y")
  {
    assert !Folio.IsSeparator("1-12345"[1]);
  }

  /**
    `Register(args)` with `args = [address, folio, legal owner, beneficial
    owner]`: validate the folio, decode the record, reject a folio already
    present, then save the record and append it to the index.
  */
  function Register(st: Store, args: seq<string>, f: Faults): (res: (Store, Reply))
    requires |args| >= 4
    ensures !Folio.Shape(args[1]) ==>
      res == (st, ResponseObject("Not-valid Folio Identifier value", "99"))
    ensures Folio.Shape(args[1]) && f.decodeFails ==>
      res == (st, ResponseObject("Invalid JSON object..!!", "99"))
    ensures Folio.Shape(args[1]) && !f.decodeFails && !f.recordReadFails && args[1] in st ==>
      res == (st, ResponseObject("Property already exists..!!", "99"))
    ensures Folio.Shape(args[1]) && !f.decodeFails && (f.recordReadFails || args[1] !in st) && f.recordWriteFails ==>
      res == (st, ResponseObject("Errors while saving the Property", "99"))
    ensures res.1.Returned? <==>
      && Folio.Shape(args[1]) && !f.decodeFails && (f.recordReadFails || args[1] !in st)
      && !f.recordWriteFails && !f.indexWriteFails
    ensures res.1.Returned? ==>
      && res.1 == ResponseObject("Successfully property registered", "0")
      && args[1] in res.0 && res.0[args[1]] == Record(NewProperty(args))
      && IndexOf(res.0) == (if f.indexReadFails then [] else IndexOf(st)) + [NewProperty(args)]
      && SameOutside(st, res.0, {args[1], IndexKey})
  {
    if !FolioAccepted(args[1]) then
      (st, ResponseObject("Not-valid Folio Identifier value", "99"))
    else if f.decodeFails then
      (st, ResponseObject("Invalid JSON object..!!", "99"))
    else
      var p := NewProperty(args);
      var present := !f.recordReadFails && p.folioId in st;
      if present then
        (st, ResponseObject("Property already exists..!!", "99"))
      else
        var saved := SaveProperty(st, p, f);
        if saved.error.Some? then
          (saved.store, ResponseObject("Errors while saving the Property", "99"))
        else
          (saved.store, ResponseObject("Successfully property registered", "0"))
  }

  /**
    The index write fails after the primary write: the record stays, the
    index does not list it, and the caller sees status "99".
  */
  lemma OrphanRecord(st: Store, args: seq<string>, f: Faults)
    requires |args| >= 4 && Folio.Shape(args[1]) && args[1] !in st
    requires !f.decodeFails && !f.recordWriteFails && f.indexWriteFails
    ensures var (st', r) := Register(st, args, f);
      && args[1] in st' && st'[args[1]] == Record(NewProperty(args))
      && IndexOf(st') == IndexOf(st)
      && SameOutside(st, st', {args[1]})
      && r == ResponseObject("Errors while saving the Property", "99")
      && EnvelopeOf(r) == Some(("Errors while saving the Property", "99"))
  {
    AcceptedFolioIsNotIndexKey(args[1]);
    assert Envelope.Plain("Errors while saving the Property");
  }

  /**
    With the duplicate lookup answered, Register keeps the index free of
    duplicate folio IDs and every index entry a primary record, whichever
    later host step fails.
  */
  lemma RegisterPreservesConsistent(st: Store, args: seq<string>, f: Faults)
    requires |args| >= 4 && Consistent(st) && !f.recordReadFails
    ensures Consistent(Register(st, args, f).0)
  {
    if FolioAccepted(args[1]) && !f.decodeFails && args[1] !in st {
      AcceptedFolioIsNotIndexKey(args[1]);
      SavePreservesConsistent(st, NewProperty(args), f);
    }
  }

  /**
    When the duplicate lookup itself fails, registering a folio a second time
    succeeds: its record is overwritten and the index lists it twice.
  */
  lemma LookupFaultDuplicates(st: Store, args: seq<string>)
    requires |args| >= 4 && Folio.Shape(args[1]) && args[1] !in st
    ensures var (st1, r1) := Register(st, args, NoFaults);
      var (st2, r2) := Register(st1, args, NoFaults.(recordReadFails := true));
      && r1.Returned? && r2.Returned?
      && IndexOf(st2) == IndexOf(st) + [NewProperty(args), NewProperty(args)]
      && !UniqueFolios(IndexOf(st2))
  {
    var p := NewProperty(args);
    var (st1, r1) := Register(st, args, NoFaults);
    var (st2, r2) := Register(st1, args, NoFaults.(recordReadFails := true));
    assert IndexOf(st2) == IndexOf(st) + [p] + [p];
    var n := |IndexOf(st)|;
    assert IndexOf(st2)[n] == p && IndexOf(st2)[n + 1] == p;
  }

  /**
    The `for` loop of `getProperties` from position `i` on, with the results
    gathered so far in `res`. The `switch` sits inside the loop, so an unknown
    search type fails at the first entry and never when no entry is left.
  */
  function SearchLoop(props: seq<Property>, i: nat, searchType: string, searchValue: string, res: seq<Property>): (r: Option<seq<Property>>)
    requires i <= |props|
    ensures ParseField(searchType).Some? ==>
      r == Some(res + Filter(props[i..], ParseField(searchType).value, searchValue))
    ensures ParseField(searchType).None? ==> (r.None? <==> i < |props|)
    ensures r.Some? ==> |r.value| <= |res| + |props| - i
    decreases |props| - i
  {
    if i == |props| then
      assert props[i..] == [] && res + [] == res;
      Some(res)
    else
      match ParseField(searchType)
      case None => None
      case Some(field) =>
        var next := if Selected(field, searchValue, props[i]) then res + [props[i]] else res;
        FilterStep(props, i, field, searchValue, res);
        SearchLoop(props, i + 1, searchType, searchValue, next)
  }

  /**
    `getProperties`: read the index and filter it on one field. A failed
    read is reported with status "99"; an absent or undecodable index is
    empty.
  */
  function GetProperties(st: Store, searchType: string, searchValue: string, f: Faults): (r: Reply)
    ensures f.indexReadFails ==> r == ResponseObject("Failed to get all Properties", "99")
    ensures !f.indexReadFails && ParseField(searchType).Some? ==>
      r == Returned(Matches(Filter(IndexOf(st), ParseField(searchType).value, searchValue)))
    ensures !f.indexReadFails && ParseField(searchType).None? && IndexOf(st) == [] ==>
      r == Returned(Matches([]))
    ensures !f.indexReadFails && ParseField(searchType).None? && IndexOf(st) != [] ==>
      r == ResponseObject("unrecognized property searchType..!!", "99")
  {
    if f.indexReadFails then ResponseObject("Failed to get all Properties", "99")
    else
      assert IndexOf(st)[0..] == IndexOf(st);
      match SearchLoop(IndexOf(st), 0, searchType, searchValue, [])
      case Some(res) =>
        assert forall s: seq<Property> :: [] + s == s;
        Returned(Matches(res))
      case None => ResponseObject("unrecognized property searchType..!!", "99")
  }

  /**
    `Query`: exactly two arguments, then `search` goes to `getProperties`;
    any other function name returns nothing and no error.
  */
  function Query(st: Store, name: string, args: seq<string>, f: Faults): (r: Reply)
    ensures |args| != 2 ==> r.Raised? && EnvelopeOf(r) == Some(("Incorrect number of arguments passed", "99"))
    ensures |args| == 2 && name != "search" ==> r == Returned(Nothing)
    ensures |args| == 2 && name == "search" && !f.indexReadFails && ParseField(args[0]).Some? ==>
      r == Returned(Matches(Filter(IndexOf(st), ParseField(args[0]).value, args[1])))
  {
    if |args| != 2 then
      assert Envelope.Plain("Incorrect number of arguments passed");
      ResponseObject("Incorrect number of arguments passed", "99")
    else if name == "search" then GetProperties(st, args[0], args[1], f)
    else Returned(Nothing)
  }

  /** `Invoke`: `init` and `register` are dispatched; any other name is an error and changes nothing. */
  function Invoke(st: Store, name: string, args: seq<string>, f: Faults): (res: (Store, Reply))
    requires name == "register" ==> |args| >= 4
    ensures name != "register" ==> res.0 == st
    ensures name == "init" ==> res.1.Returned? && EnvelopeOf(res.1) == Some(("Successfully Initialized", "0"))
    ensures name != "init" && name != "register" ==>
      res.1 == Raised(Message("Received unknown function invocation"))
    ensures name == "register" ==> res == Register(st, args, f)
  {
    if name == "init" then (st, Init())
    else if name == "register" then Register(st, args, f)
    else (st, Raised(Message("Received unknown function invocation")))
  }

  /** No invocation without a duplicate-lookup fault breaks the registry invariant. */
  lemma InvokePreservesConsistent(st: Store, name: string, args: seq<string>, f: Faults)
    requires name == "register" ==> |args| >= 4
    requires Consistent(st) && !f.recordReadFails
    ensures Consistent(Invoke(st, name, args, f).0)
  {
    if name == "register" {
      RegisterPreservesConsistent(st, args, f);
    }
  }

  /**
    An unknown search type fails with status "99" when the index has an
    entry, but succeeds with no entries when the index is empty.
  */
  lemma UnknownFieldDependsOnIndex(st: Store, searchType: string, searchValue: string)
    requires ParseField(searchType).None?
    ensures var r := Query(st, "search", [searchType, searchValue], NoFaults);
      && (IndexOf(st) == [] ==> r == Returned(Matches([])))
      && (IndexOf(st) != [] ==> r.Raised? && EnvelopeOf(r) == Some(("unrecognized property searchType..!!", "99")))
  {
    assert Query(st, "search", [searchType, searchValue], NoFaults) == GetProperties(st, searchType, searchValue, NoFaults);
    assert Envelope.Plain("unrecognized property searchType..!!");
  }

  /** In a consistent ledger a folio search finds at most the one record stored under that folio. */
  lemma FolioSearchFindsRecord(st: Store, folio: string)
    requires Consistent(st)
    ensures var r := Query(st, "search", ["Folio_ID", folio], NoFaults);
      && r.Returned? && r.body.Matches? && |r.body.properties| <= 1
      && forall e :: e in r.body.properties ==> folio in st && st[folio] == Record(e)
  {
    FolioSearchAtMostOne(IndexOf(st), folio);
  }

  /**
    After a fault-free registration a search on `ALL` lists the new record
    after the earlier ones, and registering the same folio again is refused
    without any write.
  */
  lemma RegisterThenSearch(st: Store, args: seq<string>, value: string)
    requires |args| >= 4 && Folio.Shape(args[1]) && args[1] !in st
    ensures var (st1, r) := Register(st, args, NoFaults);
      && r == ResponseObject("Successfully property registered", "0")
      && Query(st1, "search", ["ALL", value], NoFaults) == Returned(Matches(IndexOf(st) + [NewProperty(args)]))
      && Register(st1, args, NoFaults) == (st1, ResponseObject("Property already exists..!!", "99"))
  {
    var (st1, r) := Register(st, args, NoFaults);
    FilterAll(IndexOf(st1), value);
  }

  /** Registering one property on an empty ledger and searching `ALL` returns exactly that property. */
  lemma RegisterOnEmptyLedger()
    ensures var (st, r) := Register(map[], ["100 Main St", "1/12345", "Jane Doe", "John"], NoFaults);
      && r.Returned?
      && Query(st, "search", ["ALL", ""], NoFaults)
         == Returned(Matches([Property("1/12345", "Jane Doe", "John", "100 Main St", 0)]))
  {
    var empty: Store := map[];
    var args := ["100 Main St", "1/12345", "Jane Doe", "John"];
    FolioAcceptsSamples();
    assert Folio.Shape(args[1]) && args[1] !in empty;
    RegisterThenSearch(empty, args, "");
    assert IndexOf(empty) == [];
    assert NewProperty(args) == Property("1/12345", "Jane Doe", "John", "100 Main St", 0);
  }

}

=== FILE: property_info.dfy ===
/**
  The `property_info.go` variant of the registry chaincode: an unanchored
  folio check on the JSON fragment built around the argument, raw errors
  instead of status envelopes, an extra read of the index after saving, and
  a search that ignores an unknown search type.
*/
module PropertyInfo {
  import opened Wrappers
  import opened Ledger
  import opened Search
  import Folio

  /** The text Register marshals as its payload on success. */
  const RegisteredText: string := "{\"mssg\": Property Registered, \"Status\":0}"

  /** `Init` returns neither a payload nor an error. */
  function Init(): (r: Reply)
    ensures r.Returned? && r.body.Nothing?
  {
    Returned(Nothing)
  }

  /**
    The folio guard of Register: the unanchored `[0-9]{1}[/.][0-9]{5}` is run
    on the fragment `"Folio_ID":"<folio>", `, and the fragment's own emptiness
    test is part of the guard.
  */
  function FolioAccepted(folio: string): (r: bool)
    ensures r <==> Folio.ContainsShape(folio)
  {
    var fragment := Folio.FolioField(folio);
    Folio.AnywhereIsWindow(fragment);
    !(fragment == "" || !Folio.MatchAnywhere(Folio.Pattern, fragment))
  }

  /** No accepted folio ID is the index key: "allProps" holds no digit. */
  lemma AcceptedFolioIsNotIndexKey(folio: string)
    requires FolioAccepted(folio)
    ensures folio != IndexKey
  {
    assert Folio.NoDigits(IndexKey);
    Folio.NoDigitsNoWindow(IndexKey);
  }

  /**
    Every folio the anchored check of the other variant accepts is accepted
    here; the converse fails, since surrounding text is allowed here.
  */
  lemma AcceptsMoreThanAnchored(folio: string)
    ensures Folio.Shape(folio) ==> FolioAccepted(folio)
    ensures FolioAccepted("x1/12345y") && !Folio.Shape("x1/12345y")
  {
    if Folio.Shape(folio) {
      assert folio[0..7] == folio;
      assert Folio.ShapeAt(folio, 0);
    }
    var padded := "x1/12345y";
    assert padded[1..8] == "1/12345";
    assert Folio.ShapeAt(padded, 1);
  }

  /** Samples: a window anywhere is enough, and strings without one are rejected. */
  lemma FolioSamples()
    ensures FolioAccepted("1/12345") && FolioAccepted("12/123456")
    ensures !FolioAccepted("12345") && !FolioAccepted("abc") && !FolioAccepted("")
  {
    var a, b, d := "1/12345", "12/123456", "abc";
    assert a[0..7] == a;
    assert Folio.ShapeAt(a, 0);
    assert b[1..8] == "2/12345";
    assert Folio.ShapeAt(b, 1);
    assert Folio.NoDigits(d);
    Folio.NoDigitsNoWindow(d);
  }

  /**
    `saveProperty` of this variant: the shared write sequence, then one more
    read of the index, whose failure is reported although both writes are done.
  */
  function SaveProperty(st: Store, p: Property, f: Faults): (s: Saved)
    ensures s.store == Ledger.SaveProperty(st, p, f).store
    ensures f.recordWriteFails || f.indexWriteFails ==> s.error == Some(HostError)
    ensures !f.recordWriteFails && !f.indexWriteFails ==>
      s.error == (if f.readBackFails then Some(Message("Failed to get all Properties")) else None)
  {
    var saved := Ledger.SaveProperty(st, p, f);
    if saved.error.None? && f.readBackFails then
      Saved(saved.store, Some(Message("Failed to get all Properties")))
    else saved
  }

  /**
    `Register(args)` with `args = [address, folio, legal owner, beneficial
    owner]`: validate, decode, reject a folio already present, then save.
    Errors are returned as they arise, with no status envelope.
  */
  function Register(st: Store, args: seq<string>, f: Faults): (res: (Store, Reply))
    requires |args| >= 4
    ensures !Folio.ContainsShape(args[1]) ==>
      res == (st, Raised(Message("Not-valid Folio Identifier value")))
    ensures Folio.ContainsShape(args[1]) && f.decodeFails ==>
      res == (st, Raised(Message("Invalid JSON object")))
    ensures Folio.ContainsShape(args[1]) && !f.decodeFails && !f.recordReadFails && args[1] in st ==>
      res == (st, Raised(Message("Property already exists")))
    ensures Folio.ContainsShape(args[1]) && !f.decodeFails && (f.recordReadFails || args[1] !in st) && f.recordWriteFails ==>
      res == (st, Raised(HostError))
    ensures res.1.Returned? <==>
      && Folio.ContainsShape(args[1]) && !f.decodeFails && (f.recordReadFails || args[1] !in st)
      && !f.recordWriteFails && !f.indexWriteFails && !f.readBackFails
    ensures res.1.Returned? ==>
      && res.1 == Returned(Text(RegisteredText))
      && args[1] in res.0 && res.0[args[1]] == Record(NewProperty(args))
      && IndexOf(res.0) == (if f.indexReadFails then [] else IndexOf(st)) + [NewProperty(args)]
      && SameOutside(st, res.0, {args[1], IndexKey})
  {
    if !FolioAccepted(args[1]) then
      (st, Raised(Message("Not-valid Folio Identifier value")))
    else if f.decodeFails then
      (st, Raised(Message("Invalid JSON object")))
    else
      var p := NewProperty(args);
      AcceptedFolioIsNotIndexKey(args[1]);
      var present := !f.recordReadFails && p.folioId in st;
      if present then
        (st, Raised(Message("Property already exists")))
      else
        var saved := SaveProperty(st, p, f);
        if saved.error.Some? then (saved.store, Raised(saved.error.value))
        else (saved.store, Returned(Text(RegisteredText)))
  }

  /**
    The index write fails after the primary write: the record stays, the
    index does not list it, and the host's error is returned.
  */
  lemma OrphanRecord(st: Store, args: seq<string>, f: Faults)
    requires |args| >= 4 && Folio.ContainsShape(args[1]) && args[1] !in st
    requires !f.decodeFails && !f.recordWriteFails && f.indexWriteFails
    ensures var (st', r) := Register(st, args, f);
      && args[1] in st' && st'[args[1]] == Record(NewProperty(args))
      && IndexOf(st') == IndexOf(st)
      && SameOutside(st, st', {args[1]})
      && r == Raised(HostError)
  {
    AcceptedFolioIsNotIndexKey(args[1]);
  }

  /**
    The read after saving fails: the record and the index entry are both
    written, yet Register reports an error.
  */
  lemma ReadBackFaultAfterWrites(st: Store, args: seq<string>, f: Faults)
    requires |args| >= 4 && Folio.ContainsShape(args[1]) && args[1] !in st
    requires !f.decodeFails && !f.recordWriteFails && !f.indexWriteFails && !f.indexReadFails && f.readBackFails
    ensures var (st', r) := Register(st, args, f);
      && args[1] in st' && st'[args[1]] == Record(NewProperty(args))
      && IndexOf(st') == IndexOf(st) + [NewProperty(args)]
      && r == Raised(Message("Failed to get all Properties"))
  {
    AcceptedFolioIsNotIndexKey(args[1]);
  }

  /** With the duplicate lookup answered, Register keeps the registry invariant. */
  lemma RegisterPreservesConsistent(st: Store, args: seq<string>, f: Faults)
    requires |args| >= 4 && Consistent(st) && !f.recordReadFails
    ensures Consistent(Register(st, args, f).0)
  {
    if FolioAccepted(args[1]) && !f.decodeFails && args[1] !in st {
      AcceptedFolioIsNotIndexKey(args[1]);
      SavePreservesConsistent(st, NewProperty(args), f);
    }
  }

  /**
    The `for` loop of `getProperties` from position `i` on, with the results
    gathered so far in `res`; the `default` branch does nothing.
  */
  function SearchLoop(props: seq<Property>, i: nat, searchType: string, searchValue: string, res: seq<Property>): (r: seq<Property>)
    requires i <= |props|
    ensures ParseField(searchType).Some? ==>
      r == res + Filter(props[i..], ParseField(searchType).value, searchValue)
    ensures ParseField(searchType).None? ==> r == res
    decreases |props| - i
  {
    if i == |props| then
      assert props[i..] == [] && res + [] == res;
      res
    else
      match ParseField(searchType)
      case None => SearchLoop(props, i + 1, searchType, searchValue, res)
      case Some(field) =>
        var next := if Selected(field, searchValue, props[i]) then res + [props[i]] else res;
        FilterStep(props, i, field, searchValue, res);
        SearchLoop(props, i + 1, searchType, searchValue, next)
  }

  /**
    `getProperties`: read the index and filter it on one field. A failed
    read raises an error; an unknown search type yields no entries and no error.
  */
  function GetProperties(st: Store, searchType: string, searchValue: string, f: Faults): (r: Reply)
    ensures f.indexReadFails ==> r == Raised(Message("Failed to get all Properties"))
    ensures !f.indexReadFails && ParseField(searchType).Some? ==>
      r == Returned(Matches(Filter(IndexOf(st), ParseField(searchType).value, searchValue)))
    ensures !f.indexReadFails && ParseField(searchType).None? ==> r == Returned(Matches([]))
  {
    if f.indexReadFails then Raised(Message("Failed to get all Properties"))
    else
      assert IndexOf(st)[0..] == IndexOf(st);
      assert forall s: seq<Property> :: [] + s == s;
      Returned(Matches(SearchLoop(IndexOf(st), 0, searchType, searchValue, [])))
  }

  /**
    `Query`: exactly two arguments, then `search` goes to `getProperties`;
    any other function name returns nothing and no error.
  */
  function Query(st: Store, name: string, args: seq<string>, f: Faults): (r: Reply)
    ensures |args| != 2 ==> r == Raised(Message("Incorrect number of arguments passed"))
    ensures |args| == 2 && name != "search" ==> r == Returned(Nothing)
    ensures |args| == 2 && name == "search" && !f.indexReadFails ==>
      r == Returned(Matches(
        if ParseField(args[0]).Some? then Filter(IndexOf(st), ParseField(args[0]).value, args[1]) else []))
  {
    if |args| != 2 then Raised(Message("Incorrect number of arguments passed"))
    else if name == "search" then GetProperties(st, args[0], args[1], f)
    else Returned(Nothing)
  }

  /** `Invoke`: `init` and `register` are dispatched; any other name is an error and changes nothing. */
  function Invoke(st: Store, name: string, args: seq<string>, f: Faults): (res: (Store, Reply))
    requires name == "register" ==> |args| >= 4
    ensures name != "register" ==> res.0 == st
    ensures name == "init" ==> res.1 == Returned(Nothing)
    ensures name != "init" && name != "register" ==>
      res.1 == Raised(Message("Received unknown function invocation"))
    ensures name == "register" ==> res == Register(st, args, f)
  {
    if name == "init" then (st, Init())
    else if name == "register" then Register(st, args, f)
    else (st, Raised(Message("Received unknown function invocation")))
  }

  /** No invocation without a duplicate-lookup fault breaks the registry invariant. */
  lemma InvokePreservesConsistent(st: Store, name: string, args: seq<string>, f: Faults)
    requires name == "register" ==> |args| >= 4
    requires Consistent(st) && !f.recordReadFails
    ensures Consistent(Invoke(st, name, args, f).0)
  {
    if name == "register" {
      RegisterPreservesConsistent(st, args, f);
    }
  }

  /** An unknown search type returns no entries and no error, whatever the index holds. */
  lemma UnknownFieldFindsNothing(st: Store, searchType: string, searchValue: string)
    requires ParseField(searchType).None?
    ensures Query(st, "search", [searchType, searchValue], NoFaults) == Returned(Matches([]))
  {
  }
}

=== FILE: search.dfy ===
/**
  The search over the `AllProperties` index shared by both variants: the
  recognised search types, what each selects, and the reference filter the
  handlers' loops are proved against.
*/
module Search {
  import opened Wrappers
  import opened Ledger

  /** The recognised values of `searchType`. */
  datatype Field = All | ByFolioId | ByAddress | ByLegalOwner | ByBeneficialOwner

  /** The `searchType` string each case of the `switch` names. */
  function FieldName(field: Field): string {
    match field
    case All => "ALL"
    case ByFolioId => "Folio_ID"
    case ByAddress => "Address"
    case ByLegalOwner => "LegalOwner"
    case ByBeneficialOwner => "BeneficialOwner"
  }

  /** The `switch` on `searchType`: the case it selects, or `None` for the `default` branch. */
  function ParseField(name: string): (r: Option<Field>)
    ensures r.Some? ==> FieldName(r.value) == name
    ensures r.None? ==> forall field: Field :: FieldName(field) != name
  {
    if name == "ALL" then Some(All)
    else if name == "Folio_ID" then Some(ByFolioId)
    else if name == "Address" then Some(ByAddress)
    else if name == "LegalOwner" then Some(ByLegalOwner)
    else if name == "BeneficialOwner" then Some(ByBeneficialOwner)
    else None
  }

  /** Every search type's name is recognised as that search type. */
  lemma ParseFieldName(field: Field)
    ensures ParseField(FieldName(field)) == Some(field)
  {
  }

  /** Whether `p` belongs in the result: `ALL` keeps everything, the others compare one field exactly. */
  predicate Selected(field: Field, value: string, p: Property) {
    match field
    case All => true
    case ByFolioId => p.folioId == value
    case ByAddress => p.address == value
    case ByLegalOwner => p.legalOwner == value
    case ByBeneficialOwner => p.beneficialOwner == value
  }

  /** The reference filter: the selected entries of `idx`, in stored order. */
  function Filter(idx: seq<Property>, field: Field, value: string): (r: seq<Property>)
    ensures |r| <= |idx|
    ensures forall p :: p in r ==> p in idx && Selected(field, value, p)
  {
    if idx == [] then []
    else (if Selected(field, value, idx[0]) then [idx[0]] else []) + Filter(idx[1..], field, value)
  }

  /** `a` is `b` with some entries left out and the rest kept in order. */
  predicate IsSubsequence(a: seq<Property>, b: seq<Property>)
    decreases |b|
  {
    if a == [] then true
    else if b == [] then false
    else (a[0] == b[0] && IsSubsequence(a[1..], b[1..])) || IsSubsequence(a, b[1..])
  }

  /** Filtering distributes over concatenation: scanning `a` then `b` is scanning `a + b`. */
  lemma {:induction false} FilterAppend(a: seq<Property>, b: seq<Property>, field: Field, value: string)
    ensures Filter(a + b, field, value) == Filter(a, field, value) + Filter(b, field, value)
  {
    if a != [] {
      assert (a + b)[1..] == a[1..] + b;
      FilterAppend(a[1..], b, field, value);
    } else {
      assert a + b == b;
    }
  }

  /** One iteration of a search loop: entry `i` joins the results exactly when it is selected. */
  lemma FilterStep(props: seq<Property>, i: nat, field: Field, value: string, res: seq<Property>)
    requires i < |props|
    ensures res + Filter(props[i..], field, value)
      == (if Selected(field, value, props[i]) then res + [props[i]] else res) + Filter(props[i + 1..], field, value)
  {
    var rest := props[i + 1..];
    assert props[i..] == [props[i]] + rest;
    FilterAppend([props[i]], rest, field, value);
    assert [props[i]][1..] == [];
  }

  /** Every selected entry of the index is in the result: nothing that matches is dropped. */
  lemma {:induction false} FilterKeepsSelected(idx: seq<Property>, field: Field, value: string, p: Property)
    requires p in idx && Selected(field, value, p)
    ensures p in Filter(idx, field, value)
  {
    if idx[0] != p {
      FilterKeepsSelected(idx[1..], field, value, p);
    }
  }

  /** The result holds each selected entry as often as the index does: no deduplication. */
  lemma {:induction false} FilterCounts(idx: seq<Property>, field: Field, value: string, p: Property)
    ensures multiset(Filter(idx, field, value))[p] == if Selected(field, value, p) then multiset(idx)[p] else 0
  {
    if idx != [] {
      var tail := idx[1..];
      var head := if Selected(field, value, idx[0]) then [idx[0]] else [];
      FilterCounts(tail, field, value, p);
      assert idx == [idx[0]] + tail;
      assert multiset(idx) == multiset([idx[0]]) + multiset(tail);
      assert Filter(idx, field, value) == head + Filter(tail, field, value);
      assert multiset(Filter(idx, field, value)) == multiset(head) + multiset(Filter(tail, field, value));
    }
  }

  /** The result keeps the stored order of the index. */
  lemma {:induction false} FilterIsSubsequence(idx: seq<Property>, field: Field, value: string)
    ensures IsSubsequence(Filter(idx, field, value), idx)
  {
    if idx != [] {
      FilterIsSubsequence(idx[1..], field, value);
      var rest := Filter(idx[1..], field, value);
      if Selected(field, value, idx[0]) {
        assert ([idx[0]] + rest)[1..] == rest;
      } else {
        assert [] + rest == rest;
      }
    }
  }

  /** When no entry is selected the result is empty. */
  lemma {:induction false} FilterNoneSelected(idx: seq<Property>, field: Field, value: string)
    requires forall j :: 0 <= j < |idx| ==> !Selected(field, value, idx[j])
    ensures Filter(idx, field, value) == []
  {
    if idx != [] {
      FilterNoneSelected(idx[1..], field, value);
    }
  }

  /** `ALL` returns the whole index. */
  lemma {:induction false} FilterAll(idx: seq<Property>, value: string)
    ensures Filter(idx, All, value) == idx
  {
    if idx != [] {
      FilterAll(idx[1..], value);
      assert idx == [idx[0]] + idx[1..];
    }
  }

  /** With duplicate-free folio IDs, a folio search finds at most one entry. */
  lemma {:induction false} FolioSearchAtMostOne(idx: seq<Property>, value: string)
    requires UniqueFolios(idx)
    ensures |Filter(idx, ByFolioId, value)| <= 1
  {
    if idx != [] {
      var tail := idx[1..];
      assert UniqueFolios(tail) by {
        forall i, j | 0 <= i < j < |tail|
          ensures tail[i].folioId != tail[j].folioId
        {
          assert tail[i] == idx[i + 1] && tail[j] == idx[j + 1];
        }
      }
      FolioSearchAtMostOne(tail, value);
      if idx[0].folioId == value {
        forall j | 0 <= j < |tail|
          ensures !Selected(ByFolioId, value, tail[j])
        {
          assert tail[j] == idx[j + 1];
        }
        FilterNoneSelected(tail, ByFolioId, value);
      }
    }
  }
}

=== FILE: wrappers.dfy ===
/** Optional value shared by the registry modules. */
module Wrappers {

  datatype Option<+T> = None | Some(value: T)
}
